=== FILE: README.md ===
# Finance planner front-end: the pure logic of the strategy, net-worth and progress panels

The application is a React front-end whose screens render data fetched from a
backend. The little logic it holds is written inline in three components of
`src/App.jsx`. This project pulls each piece out as a pure Dafny function over
sequences and strings, and proves what the screens rely on:

- **Strategy builder: allocation editor** (module `Strategy`, `strategy.dfy`).
  - The five built-in presets and the initial "Balanced" state.
  - Preset selection: the first preset whose name matches exactly; an unknown name changes nothing.
  - `addBucket`, and per-field edits of one row. An empty number input stores 0.
  - The owner id, and the `audience`/`kind` fields of the save request.
- **Strategy builder: lookups and labels** (module `Accounts`, `accounts.dfy`).
  - The case-insensitive bucket-to-account mapping lookup.
  - `acctLabel`, with its two id fields and its fallback chain for the number.
  - The projected-balance rows of a routing plan.
- **Net worth: CSV import** (module `CsvImport`, `csv_import.dfy`). It splits
  the text into lines, drops the header and blank lines, and takes each line's
  first three comma-separated fields.
- **Net worth: chart scaling** (module `Chart`, `chart.dfy`). The scale is the
  largest plotted value, never below 1. Each bar's height is
  `max(2, round(v / scale * 100))`.
- **Progress panel** (module `Progress`, `progress.dfy`). It keeps the running
  XP record, fires the confetti on a new record, and draws the width of the
  level progress bar.

Shared helpers are in `text.dfy` (ASCII lower-casing; splitting and joining on
one separator character) and `wrappers.dfy` (`Option`, for JSON fields that
may be absent).

Modelling conventions:

- Numbers are exact reals, and `Math.round` is `Floor(x + 1/2)`.
- JavaScript's `%` truncates toward zero. It is written out for the progress width.
- A field that may be `undefined` is an `Option`. A template literal renders `undefined` as the text "undefined".
- `x || y` is written out. Only a missing value or the empty string counts as falsy for strings.
- `parseFloat` is a parameter of type `string -> real`.

The value input stores `parseFloat(text || 0)`: the empty input stores 0,
and any other text goes through the abstract `parseFloat`.

Two behaviours of the code are modelled as written:

- `acctLabel` compares ids with `===`. A missing id therefore matches an
  account that also lacks `account_id` or `id` (`Accounts.AbsentIdExample`).
- A data line of the CSV import with no comma still yields a row. Its assets
  and liabilities are missing.

## Model

| member | source | states |
|---|---|---|
| Strategy.FindPreset | src/App.jsx:227 | The index returned names a preset with exactly that name, and no earlier preset has it. None is returned iff no preset has the name. |
| Strategy.SelectPreset | src/App.jsx:226-229 | If no preset has the name, the allocations are unchanged. Otherwise they become the rows of the first preset with that name. |
| Strategy.SelectEveryPreset | src/App.jsx:214-229 | For every built-in preset, selecting it by name yields exactly that preset's rows, whatever the current rows are. |
| Strategy.SelectFire | src/App.jsx:214-229 | Selecting "FIRE" yields Investments 50, Essentials 30, Emergency 10, Discretionary 10, all percent. Selecting "Custom" yields no rows. |
| Strategy.InitialSelectionIsStable | src/App.jsx:218-229 | The initial rows are the Balanced preset's four rows. The selection effect that runs on mount with the name "Balanced" leaves them unchanged. |
| Strategy.AddBucket | src/App.jsx:230 | The length grows by exactly one. Every earlier row is unchanged. The new last row is "New Bucket", percent, 0. |
| Strategy.ParseNumber | src/App.jsx:291 | The empty input gives 0. Any other input gives what `parseFloat` makes of it. |
| Strategy.ApplyEdit | src/App.jsx:286-291 | An edit changes only its own field of the row: bucket text, type, or parsed value. The other two fields stay as they were. |
| Strategy.EditAt | src/App.jsx:286-291 | Editing row idx keeps the length and every other row. In row idx, only the edited field changes. It takes the new bucket text, the new type, or `ParseNumber` of the value input, so an empty value input stores 0. |
| Strategy.LaterEditWins | src/App.jsx:286-291 | Two edits of the same field of the same row equal the later edit alone. |
| Strategy.EditsCommute | src/App.jsx:286-291 | Edits of different rows, or of different fields of one row, give the same result in either order. |
| Strategy.ApplyEdits | src/App.jsx:284-291 | A session of edits, each naming a row that is on screen, keeps the number of rows. |
| Strategy.EditSession | src/App.jsx:284-291 | After any session of edits, a row that no edit names is unchanged. Each row's bucket is the text of the last bucket edit of that row, or its original text if there was none. |
| Strategy.OwnerId | src/App.jsx:225 | The owner id is "demo-user" iff the owner type is "user". Otherwise it is "demo-biz". |
| Strategy.Audience | src/App.jsx:232 | The audience is "individual" iff the owner type is "user". Otherwise it is "business". |
| Strategy.StrategyKind | src/App.jsx:232 | The kind is "custom" iff the preset name is exactly "Custom". Otherwise it is "prebuilt". |
| Strategy.OwnerAgreesWithAudience | src/App.jsx:225-232 | The owner id sent with requests and the audience sent on save describe the same owner. |
| Strategy.CustomKindIsEmptyPreset | src/App.jsx:214-232 | Among the built-in presets, the one saved with kind "custom" is exactly the one with no rows. |
| Strategy.BuildSave | src/App.jsx:231-232 | The save body carries the preset name as title and the current rows unchanged. Its audience is "individual" for owner type "user" and "business" otherwise. Its kind is "custom" iff the name is "Custom", and "prebuilt" otherwise. |
| Text.Lower | src/App.jsx:304 | Lower-casing keeps the length and lower-cases each ASCII letter in place. |
| Text.LowerChar | src/App.jsx:304 | An upper-case ASCII letter becomes its own lower-case letter (code point + 32). Every other character is unchanged. The result is never an upper-case letter. |
| Text.Split | src/App.jsx:357-358 | Splitting gives at least one piece, and no piece contains the separator. |
| Text.JoinSplit | src/App.jsx:357-358 | Re-joining the pieces with the separator gives back the original text. |
| Text.SplitJoin | src/App.jsx:357-358 | Pieces free of the separator, joined and then split, come back unchanged. |
| Text.SplitAppend | src/App.jsx:357-358 | Splitting `a + sep + b` gives the pieces of `a` followed by the pieces of `b`. |
| Accounts.LookupMapping | src/App.jsx:304 | The result is the account id of the first mapping whose bucket equals the row's bucket ignoring ASCII case, or "" when none matches or that mapping has no id. Any non-empty result is the id of a matching mapping. |
| Accounts.LookupIgnoresCase | src/App.jsx:304 | Buckets that differ only in letter case select the same account. |
| Accounts.Label | src/App.jsx:261 | The label is the name, a bullet, and then the number if truthy, else the masked number if truthy, else the provider account id. |
| Accounts.AcctLabel | src/App.jsx:257-262 | The label of the first account whose `account_id` or `id` equals the id. With no match, the id itself, or "" when the id is missing or empty. A present, non-empty id never gets an empty label. |
| Accounts.LabelExample | src/App.jsx:257-262 | For a directory of one account `{id a1, account_id A1, name Everyday}`, both "A1" and "a1" give "Everyday • A1". The unknown id "zzz" gives "zzz". |
| Accounts.AbsentIdExample | src/App.jsx:259-260 | A missing id matches an account lacking one of its id fields and shows that account's label. Against an account with both ids, a missing id gives "". |
| Accounts.ProjectedRows | src/App.jsx:263-268 | A plan without balances gives no rows. Otherwise there is one row per balance entry, in entry order, with the entry's id, its balance, and the id's label. |
| Accounts.ProjectedRowsFailOpen | src/App.jsx:257-268 | Every projected row with a non-empty id has a non-empty label. An id no account matches is shown as the raw id. |
| CsvImport.Field | src/App.jsx:358 | A field is present exactly when the line has that many fields, and it is that field's text. |
| CsvImport.ParseLine | src/App.jsx:358-359 | Every line yields a row with a date, because splitting always gives a first field. |
| CsvImport.SingleFieldLine | src/App.jsx:358-359 | A line without a comma is all date, with assets and liabilities missing. |
| CsvImport.ExtraFieldsIgnored | src/App.jsx:358-359 | A line made of one or more comma-free fields yields its first three as date, assets and liabilities. A field the line lacks is missing, and fields past the third are ignored. |
| CsvImport.NonEmpty | src/App.jsx:357 | Blank lines are dropped. Every kept line is non-empty. The kept lines are exactly the input's non-empty lines, with multiplicity: the multisets agree once "" is removed. |
| CsvImport.NonEmptyAppend | src/App.jsx:357 | Filtering a concatenation filters each part and keeps them in order. Together with the single-line cases, this fixes the order of the kept lines. |
| CsvImport.DataLines | src/App.jsx:357 | The data lines are non-empty and contain no newline. |
| CsvImport.CsvRows | src/App.jsx:357-360 | Text without a newline (header only) gives no rows. There is one row per data line, and every row has a date. |
| CsvImport.CsvRowsOfLines | src/App.jsx:357-360 | A header followed by any newline-free lines gives one row per non-empty line, in order. Each row is made of that line's first three comma-separated fields. |
| CsvImport.HeaderIgnored | src/App.jsx:357 | The first line never becomes a row: replacing it with any other line changes nothing. |
| CsvImport.BlankLineIgnored | src/App.jsx:357 | Inserting an empty line anywhere after the header changes nothing. |
| CsvImport.RoundTrip | src/App.jsx:357-360 | Importing a header followed by one "date,assets,liabilities" line per record gives exactly those records back, field by field, in order. |
| Chart.MaxVal | src/App.jsx:366-370 | The scale is at least 1 and at least every plotted value of the mode: net worth, or the larger of assets and liabilities. It equals 1 or one of those values, so an empty series gives 1. |
| Chart.Round | src/App.jsx:385 | The rounded value is the nearest integer, with halves rounded up. |
| Chart.BarHeight | src/App.jsx:385-389 | A height above 2 is the nearest integer to 100·v/scale, with halves rounded up. A height of 2 means 100·v/scale is below 2.5. So the height is at least 2, at most 100 for a value no larger than the scale, and exactly 100 for a value equal to the scale. |
| Chart.BarHeightMonotone | src/App.jsx:385-389 | A larger value never gets a lower bar. |
| Chart.Bars | src/App.jsx:383-389 | Bar i is drawn for point i, in the chart's mode. Its top is the height of point i's plotted value on the series' scale. In stacked mode, the assets part and the liabilities part each have the height of their own value on that scale. Every bar height lies between 2 and 100. |
| Chart.TallestBarFills | src/App.jsx:366-389 | When some point plots at 1 or more, some bar reaches exactly 100. |
| Progress.Observe | src/App.jsx:40-47 | The record never decreases. The confetti fires iff the fetched XP is present and beats the record. Exactly then the record moves, and it moves to that XP. |
| Progress.HighWaterIsMax | src/App.jsx:38-47 | The record after a run of profiles is at least every observed XP, and equals 0 or one of them. |
| Progress.HighWaterSnoc | src/App.jsx:40-47 | One more fetched profile moves the record exactly as one step of the panel does. |
| Progress.HighWaterMonotone | src/App.jsx:38-47 | The record after a longer run is never below the record after a shorter prefix of it. |
| Progress.Replay | src/App.jsx:38-47 | Starting from 0, the final record is the highest of 0 and all observed XP. The confetti fires at exactly the profiles whose XP beats the record held before them. |
| Progress.WholeLevels | src/App.jsx:56 | The number of whole 200-point levels in a non-negative XP figure, n, satisfies 200n <= xp < 200n + 200. |
| Progress.LevelRemainder | src/App.jsx:56 | JavaScript's `xp % 200` on a number lies in [0, 200) for non-negative XP and in (-200, 0] for negative XP. It differs from the XP by the whole levels taken out toward zero. |
| Progress.ProgressWidth | src/App.jsx:56 | The width is in [0, 100) percent for non-negative XP and in (-100, 0] for negative XP. Within the first level it is half the XP. |
| Progress.ProgressWidthNegative | src/App.jsx:56 | A negative XP figure gives the negated width of its absolute value, because `%` truncates toward zero. |
| Progress.ProgressRepeatsEachLevel | src/App.jsx:56 | Every further 200 XP shows the same width again. |

## Left out

- Network I/O is left out: every `fetch`, including `useFetch`, save, simulate, apply, loading and setting mappings, the profile, income, expense and deduction posts, and the net-worth snapshot and import posts. The model takes their results as inputs (the account directory, the mappings, the plan's balances, the chart series, the fetched XP). The backend that computes them is not part of this model.
- Mapping upsert (`setMap`) is left out. It posts to the backend and then reloads the mappings, so it has no local logic.
- React hooks, effects, `alert`, the `setTimeout` that resets the confetti, and all JSX and styling are left out. The model takes one confetti flag per observation and ignores its timed reset.
- The "deep copy" on preset selection is immaterial because Dafny values cannot alias.
- `parseFloat` is modelled only as "empty input gives 0". Other text goes through the abstract parameter. NaN, and `Math.max` or rounding on NaN, are not represented because the numbers are reals.
- `toFixed`, `toLocaleString` and IEEE floating point rounding are left out. The numbers are exact reals.
- `toLowerCase` is ASCII-only in the model. Unicode case mapping is out of scope.
- `Object.entries` order is taken as given: the balances are a sequence of entries in the order the runtime lists them. Its rule of listing integer-like keys first is not modelled.
- The transfer rows of the routing plan (src/App.jsx:327) only render `acctLabel` of each transfer's two ids. `Accounts.AcctLabel` models that. The layout is not modelled.
- A mapping without a `bucket`, which makes `toLowerCase` throw, is not modelled. The bucket is always a string.
- The `accs?.accounts || []` default is left out. The directory is a sequence, and a missing one is the empty sequence.
- Strategy.EditSession: states the last-edit-wins rule for the bucket field only. For the type and value fields the same rule follows from `Strategy.LaterEditWins` and `Strategy.EditsCommute`, but it is not restated for whole sessions.
- Strategy.EditAt: requires the row index to be in range. The editor only edits rows it has just rendered, so it never writes past the end of the array.
- src/components/Gamification.jsx:42 repeats the progress-width formula with a `min(100, ·)` clamp, which never changes the result for non-negative XP (`Progress.ProgressWidth`). The rest of that file, and src/components/Banking.jsx, only fetch and render.

=== FILE: accounts.dfy ===
/**
 Display-side lookups of the strategy builder: the bucket-to-account
 mapping shown in each row's selector, the human label of an account id,
 and the rows of the projected post-transfer balances.
 */
module Accounts {

  import opened Wrappers
  import opened Text

  /** A saved bucket-to-account mapping; the account id may be missing from the payload. */
  datatype Mapping = Mapping(bucket: string, bankAccountId: Option<string>)

  predicate SameBucket(m: Mapping, bucket: string) {
    Lower(m.bucket) == Lower(bucket)
  }

  /**
   The account id selected for `bucket`: that of the first mapping whose
   bucket equals it ignoring case, or "" when there is none (or the mapping
   carries no id).
   */
  function LookupMapping(mappings: seq<Mapping>, bucket: string): (id: string)
    ensures (forall i :: 0 <= i < |mappings| ==> !SameBucket(mappings[i], bucket)) ==> id == ""
    ensures forall i :: 0 <= i < |mappings| && SameBucket(mappings[i], bucket)
                        && (forall j :: 0 <= j < i ==> !SameBucket(mappings[j], bucket))
                        ==> id == mappings[i].bankAccountId.GetOr("")
    ensures id == "" || exists i :: 0 <= i < |mappings| && SameBucket(mappings[i], bucket)
                                    && mappings[i].bankAccountId == Some(id)
    decreases |mappings|
  {
    if |mappings| == 0 then ""
    else if Lower(mappings[0].bucket) == Lower(bucket) then mappings[0].bankAccountId.GetOr("")
    else LookupMapping(mappings[1..], bucket)
  }

  /** Buckets that differ only in letter case select the same account. */
  lemma {:induction false} LookupIgnoresCase(mappings: seq<Mapping>, b1: string, b2: string)
    requires Lower(b1) == Lower(b2)
    ensures LookupMapping(mappings, b1) == LookupMapping(mappings, b2)
    decreases |mappings|
  {
    if |mappings| > 0 {
      LookupIgnoresCase(mappings[1..], b1, b2);
    }
  }

  /** One entry of the account directory; every field may be missing from the payload. */
  datatype Account = Account(
    id: Option<string>,
    accountId: Option<string>,
    name: Option<string>,
    number: Option<string>,
    numberMasked: Option<string>)

  /** A value is truthy when it is present and not the empty string. */
  predicate Truthy(o: Option<string>) {
    o.Some? && o.value != ""
  }

  /** `a || b` on two possibly missing strings. */
  function OrElse(a: Option<string>, b: Option<string>): (r: Option<string>)
    ensures Truthy(a) ==> r == a
    ensures !Truthy(a) ==> r == b
  {
    if Truthy(a) then a else b
  }

  /** How a possibly missing string is rendered inside a template literal. */
  function Render(o: Option<string>): string {
    o.GetOr("undefined")
  }

  /** The separator between the account name and its number. */
  const Bullet: string := " \U{2022} "

  /** An account `id` identifies either by its provider account id or by its internal id. */
  predicate Matches(a: Account, id: Option<string>) {
    a.accountId == id || a.id == id
  }

  /**
   The label of a found account: its name, then its number, falling back to
   the masked number and finally to the provider account id.
   */
  function Label(a: Account): (s: string)
    ensures Truthy(a.number) ==> s == Render(a.name) + Bullet + a.number.value
    ensures !Truthy(a.number) && Truthy(a.numberMasked) ==> s == Render(a.name) + Bullet + a.numberMasked.value
    ensures !Truthy(a.number) && !Truthy(a.numberMasked) ==> s == Render(a.name) + Bullet + Render(a.accountId)
  {
    Render(a.name) + Bullet + Render(OrElse(a.number, OrElse(a.numberMasked, a.accountId)))
  }

  /**
   The label for account id `id`: the label of the first directory entry it
   matches, or else the id itself (the empty string when it is missing).
   */
  function AcctLabel(accounts: seq<Account>, id: Option<string>): (s: string)
    ensures (forall i :: 0 <= i < |accounts| ==> !Matches(accounts[i], id)) ==>
              s == (if Truthy(id) then id.value else "")
    ensures forall i :: 0 <= i < |accounts| && Matches(accounts[i], id)
                        && (forall j :: 0 <= j < i ==> !Matches(accounts[j], id))
                        ==> s == Label(accounts[i])
    ensures Truthy(id) ==> s != ""
    decreases |accounts|
  {
    if |accounts| == 0 then (if Truthy(id) then id.value else "")
    else if Matches(accounts[0], id) then Label(accounts[0])
    else AcctLabel(accounts[1..], id)
  }

  /** The directory example: both ids of an account find it, an unknown id shows itself. */
  lemma LabelExample()
    ensures var dir := [Account(Some("a1"), Some("A1"), Some("Everyday"), None, None)];
            && AcctLabel(dir, Some("A1")) == "Everyday \U{2022} A1"
            && AcctLabel(dir, Some("a1")) == "Everyday \U{2022} A1"
            && AcctLabel(dir, Some("zzz")) == "zzz"
  {
  }

  /**
   A missing id is compared with `===`, so it finds the first account that
   also lacks one of its two id fields, and shows that account's label.
   */
  lemma AbsentIdExample()
    ensures AcctLabel([Account(None, Some("A1"), Some("Everyday"), Some("123"), None)], None) == "Everyday \U{2022} 123"
    ensures AcctLabel([Account(Some("a1"), Some("A1"), Some("Everyday"), Some("123"), None)], None) == ""
  {
  }

  /** A projected balance row: the account id, its label and the balance. */
  datatype ProjectedRow = ProjectedRow(id: string, name: string, bal: real)

  /**
   The projected-balance rows of a routing plan, one per balance entry and in
   entry order; a plan without balances (or no plan) gives no rows.
   */
  function ProjectedRows(balances: Option<seq<(string, real)>>, accounts: seq<Account>): (rows: seq<ProjectedRow>)
    ensures balances.None? ==> rows == []
    ensures balances.Some? ==> |rows| == |balances.value|
    ensures balances.Some? ==> forall i :: 0 <= i < |rows| ==>
              && rows[i].id == balances.value[i].0
              && rows[i].bal == balances.value[i].1
              && rows[i].name == AcctLabel(accounts, Some(balances.value[i].0))
  {
    match balances
    case None => []
    case Some(entries) =>
      seq(|entries|, i requires 0 <= i < |entries| => ProjectedRow(entries[i].0, AcctLabel(accounts, Some(entries[i].0)), entries[i].1))
  }

  /**
   Every projected row with a non-empty id has a non-empty label, and an id
   the directory does not know is shown as is.
   */
  lemma ProjectedRowsFailOpen(balances: seq<(string, real)>, accounts: seq<Account>)
    ensures forall i :: 0 <= i < |balances| && balances[i].0 != "" ==> ProjectedRows(Some(balances), accounts)[i].name != ""
    ensures forall i :: 0 <= i < |balances| && (forall j :: 0 <= j < |accounts| ==> !Matches(accounts[j], Some(balances[i].0)))
                        ==> ProjectedRows(Some(balances), accounts)[i].name == balances[i].0
  {
  }
}

=== FILE: chart.dfy ===
/**
 Scaling of the net-worth bar chart. The chart either plots each point's
 net worth, or stacks its assets and liabilities; the scale is the largest
 plotted value (never below 1) and each bar's height is a percentage of it,
 rounded and never below 2.
 */
module Chart {

  import opened Wrappers

  /** A point of the fetched series; each figure may be missing. */
  datatype Point = Point(netWorth: Option<real>, assets: Option<real>, liabilities: Option<real>)

  datatype Mode = Net | Stacked

  /** `x || 0` on a possibly missing number. */
  function OrZero(v: Option<real>): real {
    v.GetOr(0.0)
  }

  function Max(a: real, b: real): (m: real)
    ensures m >= a && m >= b
    ensures m == a || m == b
  {
    if a >= b then a else b
  }

  /** The value a point contributes to the scale in the given mode. */
  function Plotted(p: Point, mode: Mode): real {
    match mode
    case Net => OrZero(p.netWorth)
    case Stacked => Max(OrZero(p.assets), OrZero(p.liabilities))
  }

  /**
   The chart scale: at least 1 and at least every plotted value, and equal
   to 1 or to one of them.
   */
  function MaxVal(series: seq<Point>, mode: Mode): (m: real)
    ensures m >= 1.0
    ensures forall i :: 0 <= i < |series| ==> Plotted(series[i], mode) <= m
    ensures m == 1.0 || exists i :: 0 <= i < |series| && Plotted(series[i], mode) == m
    decreases |series|
  {
    if |series| == 0 then 1.0
    else
      var rest := MaxVal(series[1..], mode);
      var m := Max(Plotted(series[0], mode), rest);
      assert m != 1.0 && m == rest ==> exists i :: 0 <= i < |series| && Plotted(series[i], mode) == m by {
        if m != 1.0 && m == rest {
          var k :| 0 <= k < |series[1..]| && Plotted(series[1..][k], mode) == m;
          assert series[k + 1] == series[1..][k];
        }
      }
      m
  }

  /** JavaScript's `Math.round`: the nearest integer, halves rounded up. */
  function Round(x: real): (n: int)
    ensures n as real - 0.5 <= x < n as real + 0.5
  {
    (x + 0.5).Floor
  }

  /** A bar's height in percent of the chart for value `v` on scale `maxVal`. */
  function BarHeight(v: real, maxVal: real): (h: int)
    requires maxVal > 0.0
    ensures h >= 2
    ensures v <= maxVal ==> h <= 100
    ensures v == maxVal ==> h == 100
    ensures h > 2 ==> h as real - 0.5 <= v / maxVal * 100.0 < h as real + 0.5
    ensures h == 2 ==> v / maxVal * 100.0 < 2.5
  {
    var x := v / maxVal * 100.0;
    assert v <= maxVal ==> x <= 100.0 by {
      if v <= maxVal {
        assert v / maxVal <= 1.0;
      }
    }
    assert v == maxVal ==> x == 100.0 by {
      if v == maxVal {
        assert maxVal / maxVal == 1.0;
      }
    }
    var n := Round(x);
    if 2 >= n then 2 else n
  }

  /** Higher values never get lower bars. */
  lemma BarHeightMonotone(v: real, w: real, maxVal: real)
    requires maxVal > 0.0 && v <= w
    ensures BarHeight(v, maxVal) <= BarHeight(w, maxVal)
  {
    assert v / maxVal <= w / maxVal;
  }

  datatype Bar = NetBar(height: int) | StackedBar(assetsHeight: int, liabilitiesHeight: int)

  /** The bar drawn for one point on a given scale. */
  function BarOf(p: Point, mode: Mode, maxVal: real): Bar
    requires maxVal > 0.0
  {
    match mode
    case Net => NetBar(BarHeight(OrZero(p.netWorth), maxVal))
    case Stacked => StackedBar(BarHeight(OrZero(p.assets), maxVal), BarHeight(OrZero(p.liabilities), maxVal))
  }

  /** The tallest part of a bar. */
  function Top(b: Bar): int {
    match b
    case NetBar(h) => h
    case StackedBar(ha, hl) => if ha >= hl then ha else hl
  }

  ghost predicate InChart(b: Bar) {
    match b
    case NetBar(h) => 2 <= h <= 100
    case StackedBar(ha, hl) => 2 <= ha <= 100 && 2 <= hl <= 100
  }

  /** The bars of the whole series: one per point, of the chart's mode, each within 2..100 percent. */
  function Bars(series: seq<Point>, mode: Mode): (bars: seq<Bar>)
    ensures |bars| == |series|
    ensures forall i :: 0 <= i < |bars| ==> (bars[i].NetBar? <==> mode == Net)
    ensures forall i :: 0 <= i < |bars| ==> InChart(bars[i])
    ensures forall i :: 0 <= i < |bars| ==> Top(bars[i]) == BarHeight(Plotted(series[i], mode), MaxVal(series, mode))
    ensures mode == Stacked ==> forall i :: 0 <= i < |bars| ==>
              && bars[i].assetsHeight == BarHeight(OrZero(series[i].assets), MaxVal(series, mode))
              && bars[i].liabilitiesHeight == BarHeight(OrZero(series[i].liabilities), MaxVal(series, mode))
  {
    var m := MaxVal(series, mode);
    var bars := seq(|series|, i requires 0 <= i < |series| => BarOf(series[i], mode, m));
    assert forall i :: 0 <= i < |bars| ==> Top(bars[i]) == BarHeight(Plotted(series[i], mode), m) by {
      forall i | 0 <= i < |bars|
        ensures Top(bars[i]) == BarHeight(Plotted(series[i], mode), m)
      {
        var p := series[i];
        if mode == Stacked {
          if OrZero(p.assets) >= OrZero(p.liabilities) {
            BarHeightMonotone(OrZero(p.liabilities), OrZero(p.assets), m);
          } else {
            BarHeightMonotone(OrZero(p.assets), OrZero(p.liabilities), m);
          }
        }
      }
    }
    bars
  }

  /** When some point plots at 1 or more, some bar fills the chart. */
  lemma TallestBarFills(series: seq<Point>, mode: Mode, k: nat)
    requires k < |series| && Plotted(series[k], mode) >= 1.0
    ensures exists i :: 0 <= i < |series| && Top(Bars(series, mode)[i]) == 100
  {
    var m := MaxVal(series, mode);
    var i :| 0 <= i < |series| && Plotted(series[i], mode) == m;
    var b := Bars(series, mode)[i];
    assert b == BarOf(series[i], mode, m);
    assert Top(b) == 100;
  }
}

=== FILE: csv_import.dfy ===
/**
 The row splitter of the net-worth CSV import: the text is cut into lines,
 the first line (the header) is dropped, empty lines are skipped, and each
 remaining line gives one row made of its first three comma-separated
 fields. A field the line does not have is missing.
 */
module CsvImport {

  import opened Wrappers
  import opened Text

  datatype CsvRow = CsvRow(date: Option<string>, assets: Option<string>, liabilities: Option<string>)

  /** The `i`-th field, or nothing when the line has fewer fields. */
  function Field(fields: seq<string>, i: nat): (f: Option<string>)
    ensures f.Some? <==> i < |fields|
    ensures f.Some? ==> f.value == fields[i]
  {
    if i < |fields| then Some(fields[i]) else None
  }

  /** One line as a row. Every line has at least one field, so the date is always present. */
  function ParseLine(line: string): (row: CsvRow)
    ensures row.date.Some?
  {
    var fields := Split(line, ',');
    CsvRow(Field(fields, 0), Field(fields, 1), Field(fields, 2))
  }

  /** A line without a comma is all date. */
  lemma SingleFieldLine(line: string)
    requires ',' !in line
    ensures ParseLine(line) == CsvRow(Some(line), None, None)
  {
    SplitNoSeparator(line, ',');
  }

  /** The lines that are not empty, in their original order. */
  function NonEmpty(lines: seq<string>): (kept: seq<string>)
    ensures |kept| <= |lines|
    ensures forall i :: 0 <= i < |kept| ==> kept[i] != "" && kept[i] in lines
    ensures forall l :: l in lines && l != "" ==> l in kept
    ensures multiset(kept) == multiset(lines)["" := 0]
    decreases |lines|
  {
    if |lines| == 0 then []
    else
      assert lines == [lines[0]] + lines[1..];
      if lines[0] == "" then NonEmpty(lines[1..])
      else [lines[0]] + NonEmpty(lines[1..])
  }

  /** Filtering a concatenation filters each part. */
  lemma {:induction false} NonEmptyAppend(a: seq<string>, b: seq<string>)
    ensures NonEmpty(a + b) == NonEmpty(a) + NonEmpty(b)
    decreases |a|
  {
    if |a| == 0 {
      assert a + b == b;
    } else {
      assert (a + b)[0] == a[0];
      assert (a + b)[1..] == a[1..] + b;
      NonEmptyAppend(a[1..], b);
    }
  }

  /** Lines that are all non-empty are all kept. */
  lemma {:induction false} NonEmptyKeepsAll(lines: seq<string>)
    requires forall i :: 0 <= i < |lines| ==> lines[i] != ""
    ensures NonEmpty(lines) == lines
    decreases |lines|
  {
    if |lines| > 0 {
      NonEmptyKeepsAll(lines[1..]);
    }
  }

  function ParseLines(lines: seq<string>): (rows: seq<CsvRow>)
    ensures |rows| == |lines|
    ensures forall i :: 0 <= i < |lines| ==> rows[i] == ParseLine(lines[i])
  {
    seq(|lines|, i requires 0 <= i < |lines| => ParseLine(lines[i]))
  }

  /** The data lines of the text: every line after the first one that is not empty. */
  function DataLines(csv: string): (lines: seq<string>)
    ensures forall i :: 0 <= i < |lines| ==> lines[i] != "" && '\n' !in lines[i]
  {
    NonEmpty(Split(csv, '\n')[1..])
  }

  /** The rows the import sends, one per data line and in order. */
  function CsvRows(csv: string): (rows: seq<CsvRow>)
    ensures '\n' !in csv ==> rows == []
    ensures |rows| == |DataLines(csv)|
    ensures forall i :: 0 <= i < |rows| ==> rows[i].date.Some?
  {
    assert '\n' !in csv ==> Split(csv, '\n') == [csv] by {
      if '\n' !in csv {
        SplitNoSeparator(csv, '\n');
      }
    }
    ParseLines(DataLines(csv))
  }

  /**
   A header followed by lines gives one row per non-empty line, in order,
   each made of that line's first three fields.
   */
  lemma {:induction false} CsvRowsOfLines(header: string, lines: seq<string>)
    requires |lines| >= 1
    requires '\n' !in header
    requires forall i :: 0 <= i < |lines| ==> '\n' !in lines[i]
    ensures CsvRows(header + "\n" + Join(lines, '\n')) == ParseLines(NonEmpty(lines))
  {
    assert header + "\n" + Join(lines, '\n') == header + ['\n'] + Join(lines, '\n');
    SplitAppend(header, Join(lines, '\n'), '\n');
    SplitNoSeparator(header, '\n');
    SplitJoin(lines, '\n');
    assert ([header] + lines)[1..] == lines;
  }

  /** Whatever the header line says, it never becomes a row. */
  lemma HeaderIgnored(h1: string, h2: string, body: string)
    requires '\n' !in h1 && '\n' !in h2
    ensures CsvRows(h1 + "\n" + body) == CsvRows(h2 + "\n" + body)
  {
    SplitAppend(h1, body, '\n');
    SplitNoSeparator(h1, '\n');
    SplitAppend(h2, body, '\n');
    SplitNoSeparator(h2, '\n');
    assert (Split(h1, '\n') + Split(body, '\n'))[1..] == Split(body, '\n');
    assert (Split(h2, '\n') + Split(body, '\n'))[1..] == Split(body, '\n');
  }

  /** A blank line inserted anywhere after the header changes nothing. */
  lemma BlankLineIgnored(before: string, after: string)
    ensures CsvRows(before + "\n\n" + after) == CsvRows(before + "\n" + after)
  {
    var a := Split(before, '\n');
    var b := Split(after, '\n');
    assert before + "\n\n" + after == before + ['\n'] + (['\n'] + after);
    assert Split(['\n'] + after, '\n') == [""] + b by {
      assert [] + ['\n'] + after == ['\n'] + after;
      SplitAppend([], after, '\n');
    }
    SplitAppend(before, ['\n'] + after, '\n');
    SplitAppend(before, after, '\n');
    DataLinesAppend(a, [""] + b);
    DataLinesAppend(a, b);
    NonEmptyAppend([""], b);
  }

  /** The data lines of two joined texts: those of the first, then every non-empty line of the second. */
  lemma DataLinesAppend(a: seq<string>, b: seq<string>)
    requires |a| >= 1
    ensures NonEmpty((a + b)[1..]) == NonEmpty(a[1..]) + NonEmpty(b)
  {
    assert (a + b)[1..] == a[1..] + b;
    NonEmptyAppend(a[1..], b);
  }

  /** A record as the user would type it: three comma-free fields. */
  datatype Record = Record(date: string, assets: string, liabilities: string)

  ghost predicate Plain(r: Record) {
    ',' !in r.date && ',' !in r.assets && ',' !in r.liabilities
    && '\n' !in r.date && '\n' !in r.assets && '\n' !in r.liabilities
  }

  function LineOf(r: Record): string {
    r.date + "," + r.assets + "," + r.liabilities
  }

  /** The text after the header: each record on a line of its own. */
  function Lines(records: seq<Record>): string
    decreases |records|
  {
    if |records| == 0 then "" else "\n" + LineOf(records[0]) + Lines(records[1..])
  }

  /** A CSV text: the header, then one line per record. */
  function Encode(header: string, records: seq<Record>): string {
    header + Lines(records)
  }

  /**
   A line built from comma-free fields gives its first three, a field it
   lacks being missing; any further fields are ignored.
   */
  lemma {:induction false} ExtraFieldsIgnored(fields: seq<string>)
    requires |fields| >= 1
    requires forall i :: 0 <= i < |fields| ==> ',' !in fields[i]
    ensures ParseLine(Join(fields, ',')) == CsvRow(Field(fields, 0), Field(fields, 1), Field(fields, 2))
  {
    SplitJoin(fields, ',');
  }

  lemma ParseLineOf(r: Record)
    requires Plain(r)
    ensures ParseLine(LineOf(r)) == CsvRow(Some(r.date), Some(r.assets), Some(r.liabilities))
    ensures LineOf(r) != "" && '\n' !in LineOf(r)
  {
    var parts := [r.date, r.assets, r.liabilities];
    assert parts[1..][1..] == [r.liabilities];
    assert Join(parts[1..], ',') == r.assets + [','] + r.liabilities;
    assert Join(parts, ',') == LineOf(r);
    ExtraFieldsIgnored(parts);
  }

  lemma {:induction false} SplitLines(prefix: string, records: seq<Record>)
    requires forall k :: 0 <= k < |records| ==> Plain(records[k])
    ensures Split(prefix + Lines(records), '\n') == Split(prefix, '\n') + seq(|records|, k requires 0 <= k < |records| => LineOf(records[k]))
    decreases |records|
  {
    if |records| == 0 {
      assert prefix + Lines(records) == prefix;
    } else {
      var line := LineOf(records[0]);
      var rest := records[1..];
      ParseLineOf(records[0]);
      assert prefix + Lines(records) == prefix + ['\n'] + (line + Lines(rest));
      SplitAppend(prefix, line + Lines(rest), '\n');
      SplitLines(line, rest);
      SplitNoSeparator(line, '\n');
      assert [line] + seq(|rest|, k requires 0 <= k < |rest| => LineOf(rest[k]))
          == seq(|records|, k requires 0 <= k < |records| => LineOf(records[k]));
    }
  }

  /** Importing an encoded text gives back exactly the records, field by field. */
  lemma RoundTrip(header: string, records: seq<Record>)
    requires '\n' !in header
    requires forall k :: 0 <= k < |records| ==> Plain(records[k])
    ensures CsvRows(Encode(header, records))
         == seq(|records|, k requires 0 <= k < |records| =>
                  CsvRow(Some(records[k].date), Some(records[k].assets), Some(records[k].liabilities)))
  {
    var lines := seq(|records|, k requires 0 <= k < |records| => LineOf(records[k]));
    SplitLines(header, records);
    SplitNoSeparator(header, '\n');
    assert ([header] + lines)[1..] == lines;
    forall k | 0 <= k < |lines| ensures lines[k] != "" && ParseLine(lines[k]) == CsvRow(Some(records[k].date), Some(records[k].assets), Some(records[k].liabilities)) {
      ParseLineOf(records[k]);
    }
    NonEmptyKeepsAll(lines);
  }
}

=== FILE: progress.dfy ===
/**
 The progress panel's XP tracking. The panel remembers the highest XP it
 has seen (starting from 0); each fetched profile whose XP beats that
 record fires the confetti and becomes the new record. The progress bar
 shows how far the XP is into its current 200-point level.
 */
module Progress {

  import opened Wrappers

  /** The remembered record and whether this observation fired the confetti. */
  datatype Step = Step(prevXp: real, confetti: bool)

  /**
   One fetched profile. `None` stands for no data yet or a profile without
   an XP figure; neither changes anything.
   */
  function Observe(prevXp: real, xp: Option<real>): (s: Step)
    ensures s.prevXp >= prevXp
    ensures s.confetti <==> s.prevXp > prevXp
    ensures s.confetti <==> xp.Some? && xp.value > prevXp
    ensures xp.Some? ==> s.prevXp >= xp.value
    ensures s.confetti ==> s.prevXp == xp.value
  {
    match xp
    case Some(x) => if x > prevXp then Step(x, true) else Step(prevXp, false)
    case None => Step(prevXp, false)
  }

  /** The record held after the observations `obs`, starting from 0. */
  function HighWater(obs: seq<Option<real>>): (h: real)
    ensures h >= 0.0
    decreases |obs|
  {
    if |obs| == 0 then 0.0 else Observe(HighWater(obs[..|obs| - 1]), obs[|obs| - 1]).prevXp
  }

  /** The record is the highest of 0 and every XP observed. */
  lemma {:induction false} HighWaterIsMax(obs: seq<Option<real>>)
    ensures forall i :: 0 <= i < |obs| && obs[i].Some? ==> obs[i].value <= HighWater(obs)
    ensures HighWater(obs) == 0.0 || exists i :: 0 <= i < |obs| && obs[i] == Some(HighWater(obs))
    decreases |obs|
  {
    if |obs| > 0 {
      var front := obs[..|obs| - 1];
      HighWaterIsMax(front);
      var g := HighWater(front);
      var h := HighWater(obs);
      forall i | 0 <= i < |front| && obs[i].Some?
        ensures obs[i].value <= h
      {
        assert front[i] == obs[i];
      }
      if h != 0.0 && h == g {
        var k :| 0 <= k < |front| && front[k] == Some(g);
        assert obs[k] == Some(h);
      }
    }
  }

  /** One more observation moves the record exactly as one step of the panel does. */
  lemma HighWaterSnoc(obs: seq<Option<real>>, x: Option<real>)
    ensures HighWater(obs + [x]) == Observe(HighWater(obs), x).prevXp
  {
    assert (obs + [x])[..|obs|] == obs;
  }

  /** Whether the `i`-th observation beats the record held before it. */
  predicate Beats(obs: seq<Option<real>>, i: nat)
    requires i < |obs|
  {
    obs[i].Some? && obs[i].value > HighWater(obs[..i])
  }

  /** The record never goes down as more profiles arrive. */
  lemma HighWaterMonotone(obs: seq<Option<real>>, i: nat, j: nat)
    requires i <= j <= |obs|
    ensures HighWater(obs[..i]) <= HighWater(obs[..j])
  {
    HighWaterIsMax(obs[..i]);
    HighWaterIsMax(obs[..j]);
    var h := HighWater(obs[..i]);
    if h != 0.0 {
      var k :| 0 <= k < i && obs[..i][k] == Some(h);
      assert obs[..j][k] == obs[k];
    }
  }

  /**
   Replays a sequence of fetched profiles from the initial record 0. The
   final record is the high-water mark, and the confetti fires at exactly
   the observations that beat every earlier one (and 0).
   */
  method Replay(obs: seq<Option<real>>) returns (prevXp: real, fired: seq<bool>)
    ensures prevXp == HighWater(obs)
    ensures prevXp >= 0.0
    ensures forall i :: 0 <= i < |obs| && obs[i].Some? ==> obs[i].value <= prevXp
    ensures prevXp == 0.0 || exists i :: 0 <= i < |obs| && obs[i] == Some(prevXp)
    ensures |fired| == |obs|
    ensures forall i :: 0 <= i < |obs| ==> (fired[i] <==> Beats(obs, i))
  {
    prevXp := 0.0;
    fired := [];
    var n := 0;
    while n < |obs|
      invariant 0 <= n <= |obs|
      invariant prevXp == HighWater(obs[..n])
      invariant |fired| == n
      invariant forall i :: 0 <= i < n ==> (fired[i] <==> Beats(obs, i))
    {
      var s := Observe(prevXp, obs[n]);
      HighWaterSnoc(obs[..n], obs[n]);
      assert obs[..n + 1] == obs[..n] + [obs[n]];
      assert s.confetti <==> Beats(obs, n);
      prevXp := s.prevXp;
      fired := fired + [s.confetti];
      n := n + 1;
    }
    assert obs[..|obs|] == obs;
    HighWaterIsMax(obs);
  }

  /** Points per level. */
  const LevelXp: real := 200.0

  /** The number of whole levels in a non-negative XP figure. */
  function WholeLevels(x: real): (n: int)
    requires x >= 0.0
    ensures n >= 0
    ensures LevelXp * n as real <= x < LevelXp * n as real + LevelXp
  {
    var q := x / LevelXp;
    assert x == LevelXp * q;
    q.Floor
  }

  /**
   JavaScript's `xp % 200` on a number: the remainder after taking out whole
   levels toward zero, so it takes the sign of the dividend.
   */
  function LevelRemainder(xp: real): (r: real)
    ensures xp >= 0.0 ==> 0.0 <= r < LevelXp
    ensures xp < 0.0 ==> -LevelXp < r <= 0.0
    ensures xp >= 0.0 ==> xp - r == LevelXp * WholeLevels(xp) as real
    ensures xp < 0.0 ==> xp - r == -LevelXp * WholeLevels(-xp) as real
  {
    if xp >= 0.0 then
      xp - LevelXp * WholeLevels(xp) as real
    else
      -((-xp) - LevelXp * WholeLevels(-xp) as real)
  }

  /** The width, in percent, of the progress bar for `xp`. */
  function ProgressWidth(xp: real): (w: real)
    ensures xp >= 0.0 ==> 0.0 <= w < 100.0
    ensures xp < 0.0 ==> -100.0 < w <= 0.0
    ensures 0.0 <= xp < LevelXp ==> w * 2.0 == xp
  {
    LevelRemainder(xp) / 2.0
  }

  /** A negative figure shows the mirror image of the bar for its absolute value. */
  lemma ProgressWidthNegative(xp: real)
    requires xp < 0.0
    ensures ProgressWidth(xp) == -ProgressWidth(-xp)
  {
  }

  /** Each further 200 XP starts the bar over. */
  lemma ProgressRepeatsEachLevel(xp: real)
    requires xp >= 0.0
    ensures ProgressWidth(xp + LevelXp) == ProgressWidth(xp)
  {
    var n := WholeLevels(xp);
    var m := WholeLevels(xp + LevelXp);
    assert m == n + 1;
  }
}

=== FILE: strategy.dfy ===
/**
 The allocation editor of the strategy builder: the built-in preset table,
 preset selection, appending a bucket, per-field edits of one row, and the
 values derived from the owner toggle and the preset name for the save
 request. Allocations are plain values, so the copy taken on preset
 selection can never alias the preset table.
 */
module Strategy {

  import opened Wrappers

  datatype AllocType = Percent | Fixed

  /** One row of the editor: a bucket name, how its value is read, and the value. */
  datatype Allocation = Allocation(bucket: string, allocType: AllocType, value: real)

  datatype Preset = Preset(name: string, allocations: seq<Allocation>)

  /** The five built-in presets, in the order the selector lists them. */
  const Presets: seq<Preset> := [
    Preset("Debt Free Fast", [
      Allocation("Debt", Percent, 40.0), Allocation("Essentials", Percent, 40.0),
      Allocation("Emergency", Percent, 10.0), Allocation("Investments", Percent, 10.0)]),
    Preset("FIRE", [
      Allocation("Investments", Percent, 50.0), Allocation("Essentials", Percent, 30.0),
      Allocation("Emergency", Percent, 10.0), Allocation("Discretionary", Percent, 10.0)]),
    Preset("Aggressive Investment", [
      Allocation("Investments", Percent, 60.0), Allocation("Essentials", Percent, 25.0),
      Allocation("Emergency", Percent, 5.0), Allocation("Discretionary", Percent, 10.0)]),
    Preset("Balanced", [
      Allocation("Investments", Percent, 30.0), Allocation("Essentials", Percent, 45.0),
      Allocation("Emergency", Percent, 10.0), Allocation("Discretionary", Percent, 15.0)]),
    Preset("Custom", [])
  ]

  /** The preset name and the allocations the editor starts with. */
  const InitialName: string := "Balanced"
  const InitialAllocations: seq<Allocation> := Presets[3].allocations

  /** The entry `addBucket` appends. */
  const NewBucket: Allocation := Allocation("New Bucket", Percent, 0.0)

  /** The first preset of `table` called exactly `name`, if any. */
  function FindPreset(table: seq<Preset>, name: string): (r: Option<nat>)
    ensures r.Some? ==> r.value < |table| && table[r.value].name == name
    ensures r.Some? ==> forall j :: 0 <= j < r.value ==> table[j].name != name
    ensures r.None? <==> forall j :: 0 <= j < |table| ==> table[j].name != name
    decreases |table|
  {
    if |table| == 0 then None
    else if table[0].name == name then Some(0)
    else
      match FindPreset(table[1..], name)
      case None => None
      case Some(k) => Some(k + 1)
  }

  /**
   Selecting the preset `name`: the allocations become a copy of the first
   preset of that name; a name no preset carries leaves them as they are.
   */
  function SelectPreset(table: seq<Preset>, name: string, current: seq<Allocation>): (next: seq<Allocation>)
    ensures (forall j :: 0 <= j < |table| ==> table[j].name != name) ==> next == current
    ensures forall i :: 0 <= i < |table| && table[i].name == name
                        && (forall j :: 0 <= j < i ==> table[j].name != name)
                        ==> next == table[i].allocations
  {
    match FindPreset(table, name)
    case None => current
    case Some(i) => table[i].allocations
  }

  /** Appends the placeholder bucket; nothing already present moves or changes. */
  function AddBucket(allocs: seq<Allocation>): (r: seq<Allocation>)
    ensures |r| == |allocs| + 1
    ensures forall i :: 0 <= i < |allocs| ==> r[i] == allocs[i]
    ensures r[|allocs|] == Allocation("New Bucket", Percent, 0.0)
  {
    allocs + [NewBucket]
  }

  /** The field an edit touches. */
  datatype AllocField = BucketField | TypeField | ValueField

  /** One user edit of a row: new bucket text, a new type, or the raw text of the number input. */
  datatype Edit = SetBucket(text: string) | SetType(newType: AllocType) | SetValue(input: string)
  {
    function FieldOf(): AllocField {
      match this
      case SetBucket(_) => BucketField
      case SetType(_) => TypeField
      case SetValue(_) => ValueField
    }
  }

  /**
   The number stored for the raw text of the value input: the empty input
   stores 0, any other text is whatever `parseFloat` makes of it.
   */
  function ParseNumber(input: string, parseFloat: string -> real): (v: real)
    ensures input == "" ==> v == 0.0
    ensures input != "" ==> v == parseFloat(input)
  {
    if input == "" then 0.0 else parseFloat(input)
  }

  /** A row after one edit: exactly the edited field changes. */
  function ApplyEdit(a: Allocation, e: Edit, parseFloat: string -> real): (b: Allocation)
    ensures e.FieldOf() != BucketField ==> b.bucket == a.bucket
    ensures e.FieldOf() != TypeField ==> b.allocType == a.allocType
    ensures e.FieldOf() != ValueField ==> b.value == a.value
    ensures e.SetBucket? ==> b.bucket == e.text
    ensures e.SetType? ==> b.allocType == e.newType
    ensures e.SetValue? ==> b.value == ParseNumber(e.input, parseFloat)
  {
    match e
    case SetBucket(t) => a.(bucket := t)
    case SetType(k) => a.(allocType := k)
    case SetValue(s) => a.(value := ParseNumber(s, parseFloat))
  }

  /**
   An edit of row `idx` from the editor. The row index always comes from
   the rows on screen, so it is in range.
   */
  function EditAt(allocs: seq<Allocation>, idx: nat, e: Edit, parseFloat: string -> real): (r: seq<Allocation>)
    requires idx < |allocs|
    ensures |r| == |allocs|
    ensures forall j :: 0 <= j < |allocs| && j != idx ==> r[j] == allocs[j]
    ensures e.FieldOf() != BucketField ==> r[idx].bucket == allocs[idx].bucket
    ensures e.FieldOf() != TypeField ==> r[idx].allocType == allocs[idx].allocType
    ensures e.FieldOf() != ValueField ==> r[idx].value == allocs[idx].value
    ensures e.SetBucket? ==> r[idx].bucket == e.text
    ensures e.SetType? ==> r[idx].allocType == e.newType
    ensures e.SetValue? ==> r[idx].value == ParseNumber(e.input, parseFloat)
    ensures e.SetValue? && e.input == "" ==> r[idx].value == 0.0
  {
    allocs[idx := ApplyEdit(allocs[idx], e, parseFloat)]
  }

  /** Two edits of the same field of the same row: only the later one shows. */
  lemma LaterEditWins(allocs: seq<Allocation>, idx: nat, e1: Edit, e2: Edit, parseFloat: string -> real)
    requires idx < |allocs|
    requires e1.FieldOf() == e2.FieldOf()
    ensures EditAt(EditAt(allocs, idx, e1, parseFloat), idx, e2, parseFloat) == EditAt(allocs, idx, e2, parseFloat)
  {
  }

  /** Edits of different rows, or of different fields, do not interfere. */
  lemma EditsCommute(allocs: seq<Allocation>, i: nat, j: nat, e1: Edit, e2: Edit, parseFloat: string -> real)
    requires i < |allocs| && j < |allocs|
    requires i != j || e1.FieldOf() != e2.FieldOf()
    ensures EditAt(EditAt(allocs, i, e1, parseFloat), j, e2, parseFloat)
         == EditAt(EditAt(allocs, j, e2, parseFloat), i, e1, parseFloat)
  {
  }

  /** A session of edits, each naming the row it applies to. */
  datatype RowEdit = RowEdit(row: nat, edit: Edit)

  ghost predicate InRange(edits: seq<RowEdit>, n: nat) {
    forall k :: 0 <= k < |edits| ==> edits[k].row < n
  }

  function ApplyEdits(allocs: seq<Allocation>, edits: seq<RowEdit>, parseFloat: string -> real): (r: seq<Allocation>)
    requires InRange(edits, |allocs|)
    ensures |r| == |allocs|
    decreases |edits|
  {
    if |edits| == 0 then allocs
    else ApplyEdits(EditAt(allocs, edits[0].row, edits[0].edit, parseFloat), edits[1..], parseFloat)
  }

  /** The bucket text of the last `SetBucket` of row `idx` in `edits`, or `start` when there is none. */
  function LastBucket(edits: seq<RowEdit>, idx: nat, start: string): string
    decreases |edits|
  {
    if |edits| == 0 then start
    else
      var last := edits[|edits| - 1];
      if last.row == idx && last.edit.SetBucket? then last.edit.text
      else LastBucket(edits[..|edits| - 1], idx, start)
  }

  /** Whether any edit in `edits` names row `idx`. */
  predicate Touches(edits: seq<RowEdit>, idx: nat) {
    exists k :: 0 <= k < |edits| && edits[k].row == idx
  }

  /**
   After any session of edits, every row no edit names is unchanged, and the
   bucket of every row is the text of the last edit of that field.
   */
  lemma {:induction false} EditSession(allocs: seq<Allocation>, edits: seq<RowEdit>, parseFloat: string -> real)
    requires InRange(edits, |allocs|)
    ensures forall i :: 0 <= i < |allocs| && !Touches(edits, i) ==> ApplyEdits(allocs, edits, parseFloat)[i] == allocs[i]
    ensures forall i :: 0 <= i < |allocs| ==>
              ApplyEdits(allocs, edits, parseFloat)[i].bucket == LastBucket(edits, i, allocs[i].bucket)
    decreases |edits|
  {
    if |edits| > 0 {
      var n := |edits| - 1;
      var front := edits[..n];
      assert InRange(front, |allocs|);
      EditSession(allocs, front, parseFloat);
      ApplyEditsSnoc(allocs, front, edits[n], parseFloat);
      assert edits == front + [edits[n]];
    }
  }

  /** Applying one more edit at the end of a session is one more `EditAt`. */
  lemma {:induction false} ApplyEditsSnoc(allocs: seq<Allocation>, edits: seq<RowEdit>, last: RowEdit, parseFloat: string -> real)
    requires InRange(edits, |allocs|) && last.row < |allocs|
    ensures InRange(edits + [last], |allocs|)
    ensures ApplyEdits(allocs, edits + [last], parseFloat)
         == EditAt(ApplyEdits(allocs, edits, parseFloat), last.row, last.edit, parseFloat)
    decreases |edits|
  {
    var all := edits + [last];
    if |edits| > 0 {
      var next := EditAt(allocs, edits[0].row, edits[0].edit, parseFloat);
      assert all[1..] == edits[1..] + [last];
      assert InRange(edits[1..], |next|);
      ApplyEditsSnoc(next, edits[1..], last, parseFloat);
    } else {
      assert all[1..] == [];
    }
  }

  /** Selecting any built-in preset by name yields exactly that preset's rows. */
  lemma SelectEveryPreset(current: seq<Allocation>)
    ensures forall i :: 0 <= i < |Presets| ==> SelectPreset(Presets, Presets[i].name, current) == Presets[i].allocations
  {
  }

  lemma SelectFire(current: seq<Allocation>)
    ensures SelectPreset(Presets, "FIRE", current) == [
      Allocation("Investments", Percent, 50.0), Allocation("Essentials", Percent, 30.0),
      Allocation("Emergency", Percent, 10.0), Allocation("Discretionary", Percent, 10.0)]
    ensures SelectPreset(Presets, "Custom", current) == []
  {
    SelectEveryPreset(current);
    assert Presets[1].name == "FIRE";
    assert Presets[4].name == "Custom";
  }

  /** The selection effect that runs when the editor first appears changes nothing. */
  lemma InitialSelectionIsStable()
    ensures SelectPreset(Presets, InitialName, InitialAllocations) == InitialAllocations
    ensures |InitialAllocations| == 4
  {
    SelectEveryPreset(InitialAllocations);
    assert Presets[3].name == InitialName;
  }

  /** The owner id the requests carry for the owner toggle. */
  function OwnerId(ownerType: string): (id: string)
    ensures id == "demo-user" || id == "demo-biz"
    ensures id == "demo-user" <==> ownerType == "user"
  {
    if ownerType == "user" then "demo-user" else "demo-biz"
  }

  function Audience(ownerType: string): (a: string)
    ensures a == "individual" || a == "business"
    ensures a == "individual" <==> ownerType == "user"
  {
    if ownerType == "user" then "individual" else "business"
  }

  function StrategyKind(name: string): (k: string)
    ensures k == "custom" || k == "prebuilt"
    ensures k == "custom" <==> name == "Custom"
  {
    if name == "Custom" then "custom" else "prebuilt"
  }

  /** The owner id and the audience always describe the same owner. */
  lemma OwnerAgreesWithAudience(ownerType: string)
    ensures OwnerId(ownerType) == "demo-user" <==> Audience(ownerType) == "individual"
  {
  }

  /** Among the built-in presets, the one saved as "custom" is exactly the one with no rows. */
  lemma CustomKindIsEmptyPreset()
    ensures forall i :: 0 <= i < |Presets| ==>
              (StrategyKind(Presets[i].name) == "custom" <==> Presets[i].allocations == [])
  {
  }

  /** The body of the save request. */
  datatype SavePayload = SavePayload(title: string, audience: string, kind: string, allocations: seq<Allocation>)

  function BuildSave(name: string, ownerType: string, allocs: seq<Allocation>): (p: SavePayload)
    ensures p.title == name
    ensures p.allocations == allocs
    ensures p.audience == "individual" <==> ownerType == "user"
    ensures p.kind == "custom" <==> name == "Custom"
    ensures p.kind == "custom" || p.kind == "prebuilt"
    ensures p.audience == "individual" || p.audience == "business"
  {
    SavePayload(name, Audience(ownerType), StrategyKind(name), allocs)
  }
}

=== FILE: text.dfy ===
/**
 String helpers shared by the editor and the CSV import: ASCII lower-casing
 (the model of `toLowerCase`) and splitting on a single separator character
 (the model of `String.prototype.split` with a one-character pattern).
 */
module Text {

  /** Lower-cases one ASCII letter; every other character is left alone. */
  function LowerChar(c: char): (r: char)
    ensures !('A' <= r <= 'Z')
    ensures 'a' <= r <= 'z' <==> ('a' <= c <= 'z' || 'A' <= c <= 'Z')
    ensures !('A' <= c <= 'Z') ==> r == c
    ensures 'A' <= c <= 'Z' ==> r as int == c as int + 32
  {
    if 'A' <= c <= 'Z' then (c as int + 32) as char else c
  }

  function Lower(s: string): (r: string)
    ensures |r| == |s|
    ensures forall i :: 0 <= i < |s| ==> r[i] == LowerChar(s[i])
  {
    seq(|s|, i requires 0 <= i < |s| => LowerChar(s[i]))
  }

  /**
   Splits `s` at every occurrence of `sep`. Like JavaScript's `split`, the
   empty string yields one empty piece and adjacent separators yield empty
   pieces between them.
   */
  function Split(s: string, sep: char): (parts: seq<string>)
    ensures |parts| >= 1
    ensures forall i :: 0 <= i < |parts| ==> sep !in parts[i]
    decreases |s|
  {
    if |s| == 0 then [""]
    else
      var rest := Split(s[1..], sep);
      if s[0] == sep then [""] + rest
      else [[s[0]] + rest[0]] + rest[1..]
  }

  /** Glues the pieces back together with `sep` between neighbours. */
  function Join(parts: seq<string>, sep: char): (s: string)
    requires |parts| >= 1
    ensures |s| >= |parts| - 1
    decreases |parts|
  {
    if |parts| == 1 then parts[0] else parts[0] + [sep] + Join(parts[1..], sep)
  }

  /** Splitting loses nothing: the pieces re-join to the original text. */
  lemma {:induction false} JoinSplit(s: string, sep: char)
    ensures Join(Split(s, sep), sep) == s
    decreases |s|
  {
    if |s| > 0 {
      var rest := Split(s[1..], sep);
      JoinSplit(s[1..], sep);
      if s[0] == sep {
        assert Split(s, sep) == [""] + rest;
        assert ([""] + rest)[1..] == rest;
      } else {
        var parts := Split(s, sep);
        assert parts == [[s[0]] + rest[0]] + rest[1..];
        if |rest| == 1 {
          assert parts == [[s[0]] + rest[0]];
        } else {
          assert parts[1..] == rest[1..];
          assert Join(rest, sep) == rest[0] + [sep] + Join(rest[1..], sep);
        }
      }
    }
  }

  /** Pieces free of the separator come back unchanged from a join and a split. */
  lemma {:induction false} SplitJoin(parts: seq<string>, sep: char)
    requires |parts| >= 1
    requires forall i :: 0 <= i < |parts| ==> sep !in parts[i]
    ensures Split(Join(parts, sep), sep) == parts
    decreases |parts|
  {
    if |parts| == 1 {
      SplitNoSeparator(parts[0], sep);
    } else {
      SplitJoin(parts[1..], sep);
      SplitAppend(parts[0], Join(parts[1..], sep), sep);
      SplitNoSeparator(parts[0], sep);
      assert parts == [parts[0]] + parts[1..];
    }
  }

  /** Text without the separator is a single piece. */
  lemma {:induction false} SplitNoSeparator(s: string, sep: char)
    requires sep !in s
    ensures Split(s, sep) == [s]
    decreases |s|
  {
    if |s| > 0 {
      assert sep !in s[1..] by {
        forall i | 0 <= i < |s[1..]| ensures s[1..][i] != sep {
          assert s[1..][i] == s[i + 1];
        }
      }
      SplitNoSeparator(s[1..], sep);
      assert [s[0]] + s[1..] == s;
    }
  }

  /** Splitting distributes over a separator: the text on each side splits on its own. */
  lemma {:induction false} SplitAppend(a: string, b: string, sep: char)
    ensures Split(a + [sep] + b, sep) == Split(a, sep) + Split(b, sep)
    decreases |a|
  {
    var s := a + [sep] + b;
    if |a| == 0 {
      assert s == [sep] + b;
      assert s[1..] == b;
    } else {
      assert s[0] == a[0];
      assert s[1..] == a[1..] + [sep] + b;
      SplitAppend(a[1..], b, sep);
    }
  }
}

=== FILE: wrappers.dfy ===
/** A value that a JSON payload may or may not carry (`undefined` in the source). */
module Wrappers {

  datatype Option<+T> = None | Some(value: T) {

    /** Returns the carried value, or `default` when there is none. */
    function GetOr(default: T): T {
      match this
      case Some(v) => v
      case None => default
    }
  }
}
